=== FILE: README.md ===
# Namada browser-extension wallet: transaction orchestration, in Dafny

This project models three pieces of the wallet's orchestration logic as pure
functions over immutable datatypes. It proves the ordering and outcome
properties each piece promises.

- **KeyRingService** (`keyring_service.dfy`) covers the background service.
  - Every `submit…` method except `submitTransfer` broadcasts `startTx`, runs the keyring operation, and emits exactly one `completeTx` whose flag is the outcome. Success adds type-specific `update…` broadcasts. Failure rethrows a wrapped error.
  - `submitTransfer` only starts the transaction. It routes the signing work by build target: the chrome offscreen document, the firefox web worker, or a warning. `handleTransferCompleted` completes it.
  - Saving, scanning, deriving and setting the active account are followed by `updateAccounts` on success; deleting and renaming broadcast nothing.
  - `saveLedger` refuses an address that is already stored.
  - `findParentByPublicKey` returns the first root account holding a key.

  The keyring, the SDK and the browser are oracle arguments. The result is an ordered `Event` trace plus the way the promise settles. A reference lifecycle machine (`Step`/`Replay`: Unstarted, Pending, Completed, Failed) replays a trace for one `msgId`. It is the reference semantics the traces are proved against.
- **LedgerApproval** (`ledger_approval.dfy`) covers the Ledger approval screen: `handleSubmitTx`, `revealPk` and `submitTx`.
  - The inputs are the device's answers: transport opening, status word, reveal signature and transaction signature. They also include the local key store's answer, the chain's answers before and after a reveal, and the outcome of sending the reveal.
  - A device answer is modelled as `Response`, the status word and message that every response of the Ledger library carries (its `ResponseBase`).
  - The output is the ordered list of actions (store and chain queries, `StorePK`, signing, sending the reveal, sending the transaction, closing the transport, closing the tab), the statuses set, and the error shown.
- **Keplr** (`keplr.dfy`) covers the Keplr bridge.
  - `detect`.
  - The RPC URL (`protocol://url`, plus `:port` only for a truthy port) and the REST URL (always port 1317).
  - The bech32 prefixes and the single `uatom` currency with 6 decimals.
  - `suggestChain`, `enable` and `getKey`, including their branches for a missing extension.
- **Common** (`common.dfy`) holds the shared vocabulary: `Option`, `Outcome`, `TxType`, JavaScript truthiness of optional strings, and how `${new Error(m)}` renders (`"Error: " + m`).

Behaviour of the code that the model keeps:

- When the keyring throws, `submitTransfer` emits no `completeTx`, so a listener's transaction stays Pending (`TransferCompletesOnlyViaHandler`).
- `submitTransferChrome` is started without `await`. A worker error it raises (message defaulting to "Error in web worker") therefore never reaches `submitTransfer`'s caller.
- In the Ledger screen `submitTx(ledger)` is not awaited. If `txType` or `msgId` is missing, its rejection goes unobserved: the status stays Pending and the transport stays open. The signed transaction is sent without `await`, so a good signature always ends in Completed, and Completed closes the tab.
- When `Ledger.init` rejects, the screen shows the error and fails at once: no Pending, no action, and no transport to close. A bad device status closes the transport and fails without going through Pending. Every other failure goes Pending, then Failed, with the transport closed.
- Account operations that only delegate to the keyring (`saveAccountSecret`, `deriveAccount`, …) rethrow the keyring's own error unchanged (`Rethrown`); the submit methods throw a new `Error` whose message wraps the cause (`Rejected`).

## Model

| member | source | states |
|---|---|---|
| KeyRingService.SubmitBond | apps/extension/src/background/keyring/service.ts:171-187 | startTx, the keyring call, completeTx(true), updateStaking, updateBalance on success; on failure completeTx(false, error text) only and a rejection "Unable to submit bond tx! " + error |
| KeyRingService.SubmitUnbond | apps/extension/src/background/keyring/service.ts:189-208 | the bond pattern for unbond, with its own failure message |
| KeyRingService.SubmitWithdraw | apps/extension/src/background/keyring/service.ts:210-229 | the bond pattern for withdraw, with its own failure message |
| KeyRingService.SubmitVoteProposal | apps/extension/src/background/keyring/service.ts:231-249 | on success only updateProposals follows completeTx(true); failure as for bond with its own message |
| KeyRingService.SubmitIbcTransfer | apps/extension/src/background/keyring/service.ts:341-360 | on success only updateBalance follows completeTx(true); failure rejects with "Unable to encode IBC transfer! " + error |
| KeyRingService.SubmitEthBridgeTransfer | apps/extension/src/background/keyring/service.ts:362-386 | on success only updateBalance follows completeTx(true); failure rejects with "Unable to encode Eth Bridge transfer! " + error |
| KeyRingService.InlineSubmitCompletesOnce | apps/extension/src/background/keyring/service.ts:176-186 | for every kind but transfer: startTx comes first and before the keyring call; there is exactly one completeTx; its flag is the outcome and its payload is the error text on failure; a failure emits no update broadcast and rejects |
| KeyRingService.InlineSubmitReachesTerminal | apps/extension/src/background/keyring/service.ts:176-186 | replaying the trace through the lifecycle machine takes a fresh transaction to Completed exactly when the keyring returned, and to Failed when it threw |
| KeyRingService.RefreshesAfterSuccess | apps/extension/src/background/keyring/service.ts:179-243 | after completeTx(true): bond, unbond and withdraw emit updateStaking then updateBalance; vote proposal emits only updateProposals; IBC and Eth-bridge emit only updateBalance |
| KeyRingService.SubmitTransferChrome | apps/extension/src/background/keyring/service.ts:251-277 | creates the offscreen document iff none exists, then sends the transfer exactly once, and emits nothing else (one event, or two when it first creates the document); resolves iff the answer carries no error; otherwise rejects with the error's message when truthy and "Error in web worker" otherwise, never with an empty message |
| KeyRingService.OffscreenDocumentCreatedAtMostOnce | apps/extension/src/background/keyring/service.ts:261-263 | over any sequence of chrome transfers in one session, the offscreen document is created once if none existed and never if one did |
| KeyRingService.DispatchTransfer | apps/extension/src/background/keyring/service.ts:314-325 | work goes to the offscreen document iff the target is "chrome", to a web worker iff it is "firefox", and any other target only warns and submits nothing; firefox starts exactly one worker, and chrome or firefox send the work exactly once in total |
| KeyRingService.SubmitTransfer | apps/extension/src/background/keyring/service.ts:308-339 | starts with startTx and the keyring call; never emits completeTx; resolves iff the keyring returned, then ending with updateBalance; on failure rejects with "Unable to submit the transfer! " + error and emits no updateBalance; dispatch happens only if the keyring invoked the submit callback; the offscreen send, the web-worker start and the unsupported-target warning each happen iff the keyring invoked the submit callback and the target selects them; the work is sent exactly once when the callback ran with a supported target and never otherwise; updateBalance is broadcast exactly once on success |
| KeyRingService.HandleTransferCompleted | apps/extension/src/background/keyring/service.ts:397-404 | emits one completeTx(msgId, Transfer, success, payload), then updateBalance |
| KeyRingService.TransferCompletesOnlyViaHandler | apps/extension/src/background/keyring/service.ts:327-338 | after submitTransfer the transaction is Pending with no completion; appending handleTransferCompleted's trace gives exactly one completion and ends in Completed or Failed by its success flag |
| KeyRingService.AccountOperation | apps/extension/src/background/keyring/service.ts:81-132 | saveAccountSecret, scanAccounts, deriveAccount and setActiveAccount (388-391) broadcast updateAccounts iff the keyring succeeded; delete and rename never broadcast; a keyring error is rethrown as it is (`Rethrown` of its rendering), with no broadcast; at most one updateAccounts is ever broadcast |
| KeyRingService.AccountOperationLeavesLifecycle | apps/extension/src/background/keyring/service.ts:81-132 | replaying any account operation's broadcasts through the lifecycle machine leaves every transaction's status where it was and completes nothing |
| KeyRingService.SaveLedger | apps/extension/src/background/keyring/service.ts:93-117 | a lookup that throws is rethrown; otherwise fails with AlreadyImported iff an account exists at the address; a throwing storeLedger is rethrown and a `false` from it resolves with the store unchanged; when storeLedger stores, exactly one Ledger account with the bech32-encoded key is added at that address, the store grows by one and every other account is unchanged |
| KeyRingService.SaveLedgerKeepsAddressesUnique | apps/extension/src/background/keyring/service.ts:103-108 | a save that stored keeps every account under its own address, and saving the same address again is refused whatever the keyring would answer |
| KeyRingService.FindParentByPublicKey | apps/extension/src/background/keyring/service.ts:150-160 | returns the first record, in stored order, holding the key and having no truthy parent id, and nothing iff no record qualifies |
| LedgerApproval.RevealPk | apps/extension/src/Approvals/ApproveTx/ConfirmLedgerTx.tsx:45-97 | the reveal is signed first; it is sent iff the device returned NoErrors; it throws iff the signature was refused or the send failed, wrapped as "Unable to parse tx on Ledger: Error: …" |
| LedgerApproval.RevealErrorKeepsCause | apps/extension/src/Approvals/ApproveTx/ConfirmLedgerTx.tsx:69-96 | the device's message, or the failed send's error, ends the error the reveal throws |
| LedgerApproval.SubmitTx | apps/extension/src/Approvals/ApproveTx/ConfirmLedgerTx.tsx:117-165 | without txType, source or msgId nothing observable happens; a refused signature closes the transport and fails with "Error: Signing error encountered: " + the device message; an accepted one sends the transaction, completes, and closes the tab |
| LedgerApproval.EnsureRevealed | apps/extension/src/Approvals/ApproveTx/ConfirmLedgerTx.tsx:191-231 | a missing source or public key throws its message before anything is queried; the block finishes without throwing iff the key is stored, found on chain, or revealed by a signed and sent reveal that the chain then confirms; a reveal is sent iff neither store nor chain knew the key and the device signed it; an unconfirmed reveal throws "Public key was not revealed!"; a needed reveal that fails on the device rethrows revealPk's own error; on success the stored-key query comes first and the last action stores the key iff it was not already stored |
| LedgerApproval.HandleSubmitTx | apps/extension/src/Approvals/ApproveTx/ConfirmLedgerTx.tsx:167-238 | a rejected `Ledger.init` fails at once with its error and no action; at least one status is set, and the first is Pending iff the device opened with a good status; an error is shown iff the screen ends Failed; the transport is closed iff the device opened and the screen ends Failed; the transaction is signed iff the device is healthy, the reveal block finished and submitTx has its details; a throw inside the try block sets Pending then Failed, performs the block's actions then closes the transport, and shows the thrown error's rendering; the screen ends Completed iff, in addition, the device accepted the transaction signature, and a refused signature shows "Error: Signing error encountered: " + the device message |
| LedgerApproval.DeviceStatusFailure | apps/extension/src/Approvals/ApproveTx/ConfirmLedgerTx.tsx:177-186 | a bad device status closes the transport, shows the device's message, and fails without ever being Pending |
| LedgerApproval.MissingDetailsFail | apps/extension/src/Approvals/ApproveTx/ConfirmLedgerTx.tsx:191-237 | a missing source or public key after going Pending fails with the matching message, the transport closed and nothing queried |
| LedgerApproval.StoredKeySkipsChain | apps/extension/src/Approvals/ApproveTx/ConfirmLedgerTx.tsx:202-232 | a locally stored key means no chain query, no reveal, and straight to submitTx |
| LedgerApproval.ChainKeyIsBackfilled | apps/extension/src/Approvals/ApproveTx/ConfirmLedgerTx.tsx:209-215 | a key found on chain but not stored is stored locally right after the chain query and the flow hands over to submitTx: the actions are store query, chain query, store key, then submitTx's actions; the statuses are Pending then submitTx's; the error is submitTx's; no reveal is signed or sent |
| LedgerApproval.UnconfirmedRevealAborts | apps/extension/src/Approvals/ApproveTx/ConfirmLedgerTx.tsx:216-226 | a reveal the chain does not confirm fails with "Error: Public key was not revealed!" after exactly one reveal send; the original transaction is never signed or sent, and the transport is closed last |
| LedgerApproval.RevealSignFailureSendsNothing | apps/extension/src/Approvals/ApproveTx/ConfirmLedgerTx.tsx:71-77 | a refused reveal signature throws before any reveal is sent; the flow fails and its error ends with the device's message |
| LedgerApproval.ConfirmedRevealPrecedesSubmission | apps/extension/src/Approvals/ApproveTx/ConfirmLedgerTx.tsx:217-232 | for an unrevealed account the actions are: store query, chain query (none), sign reveal, send reveal, chain query (key), store key, sign tx, send tx, close tab; the statuses are Pending then Completed |
| LedgerApproval.RevealOrderingHolds | apps/extension/src/Approvals/ApproveTx/ConfirmLedgerTx.tsx:203-232 | for all device, store and chain answers: every reveal sent is followed, before any transaction sent, by a chain query that found the key and a local store of it; a transaction is sent only when the key was stored, on chain, or confirmed by the chain after a reveal that was actually sent |
| LedgerApproval.OutcomeIsWellFormed | apps/extension/src/Approvals/ApproveTx/ConfirmLedgerTx.tsx:167-238 | for all answers the statuses only move forward. Failed shows an error and, once a device was opened, closes the transport. Completed shows no error: it sent the transaction, closed the tab last and never closed the transport. The screen stays Pending only when submitTx lacked a detail |
| Keplr.Detect | packages/anoma-wallet/src/lib/Keplr.ts:32-34 | true exactly when the extension exists and has experimentalSuggestChain |
| Keplr.RpcUrl | packages/anoma-wallet/src/lib/Keplr.ts:40-41 | the RPC URL begins with protocol://url and is longer exactly when the port is truthy (set and not 0); then it is followed by ":" and the port's decimal digits, otherwise by nothing |
| Keplr.RpcUrlCarriesPort | packages/anoma-wallet/src/lib/Keplr.ts:40-41 | the RPC URL begins with protocol://url; it is longer exactly when the port is truthy, and then continues with ":" and digits that read back as the port |
| Keplr.RestUrl | packages/anoma-wallet/src/lib/Keplr.ts:44 | the REST URL is protocol://url:1317 whatever the configured port |
| Keplr.RpcIsRestExactlyOnRestPort | packages/anoma-wallet/src/lib/Keplr.ts:41-44 | the RPC and REST URLs are equal exactly when the configured port is 1317 |
| Keplr.Bech32ConfigFor | packages/anoma-wallet/src/lib/Keplr.ts:66-74 | the prefixes are "cosmos" followed by "", "pub", "valoper", "valoperpub", "valcons", "valconspub" |
| Keplr.Bech32PrefixesDistinct | packages/anoma-wallet/src/lib/Keplr.ts:66-74 | all six prefixes start with "cosmos" and no two are equal |
| Keplr.ChainInfoFor | packages/anoma-wallet/src/lib/Keplr.ts:39-78 | the chain id and name come from the chain and the coin type from the token; one currency record (the token's symbol, "uatom", 6 decimals) is the stake currency, the only currency and the only fee currency; the gas price steps are 0.01, 0.025 and 0.03 (in thousandths 10, 25, 30), ordered low, average, high |
| Keplr.SuggestChain | packages/anoma-wallet/src/lib/Keplr.ts:36-88 | without the suggest capability nothing is sent and it rejects with false; otherwise the chain description is sent, and it resolves true iff Keplr accepted and rejects false otherwise |
| Keplr.RequestWithChainId | packages/anoma-wallet/src/lib/Keplr.ts:90-112 | enable and getKey resolve false without calling anything when Keplr is absent; otherwise they send the chain id and resolve true iff Keplr accepted, rejecting false otherwise |
| Keplr.AbsentKeplrSettlesDifferently | packages/anoma-wallet/src/lib/Keplr.ts:87-112 | without the extension, suggestChain rejects with false while enable and getKey resolve to false, and none sends anything; an extension lacking the suggest capability is sent nothing by suggestChain but still receives enable and getKey |

## Left out

- Cryptography and encoding are not modelled: hex and base64 decoding, bech32 encoding of the public key, transaction encoding, the SDK and MASP calls, and vault decryption. The bech32 encoder is a function argument of `SaveLedger`. A malformed hex key, which makes `fromHex` throw before the duplicate check, is not modelled.
- The keyring proper (`keyring.ts`) is not part of this model. Its operations are oracle outcomes. `queryAccountByAddress` is modelled as a lookup in a map keyed by address, which may also throw. `storeLedger` may store, resolve to `false` or throw; a store is modelled as an insert into that map with the new account's id as an argument, and a `false` is taken to leave the map unchanged.
- KeyRingService.SaveLedger: the error carries the address, not the message "Keys for … already imported!". The `truncateInMiddle` helper that shortens the address belongs to a utility package that is not part of this model.
- The remaining service methods are left out: `connect`, mnemonic generation and validation, `revealAccountMnemonic`, the `query…` pass-throughs, `findByAddress`, `queryBalances`, `queryPublicKey`, MASP parameters, `initSdkStore`, `checkDurability` and `closeOffscreenDocument`. Each only delegates or is host I/O, and none broadcasts.
- Host APIs are not modelled: the chrome offscreen API, the firefox web worker, `chrome.runtime.sendMessage`, and the router id. The model keeps only the routing decision, whether a document must be created, and the worker's answer. The transfer payload (password, spending key) is not modelled.
- Broadcaster failures are not modelled. Every submit awaits `broadcaster.startTx` before its `try` block (service.ts lines 176, 194, 215, 236, 327, 346, 367). If that call rejected, the submit would reject with the broadcaster's error and never call the keyring. A broadcaster call that throws inside the `try` would lead to a second `completeTx(false)`. The model treats every broadcast as delivered.
- Failures of the Ledger transport's own calls are not modelled. `ledger.status()` rejecting (ConfirmLedgerTx.tsx line 177, outside any `try`) would leave the screen Unstarted with the transport open. `ledger.closeTransport()` rejecting (lines 161, 183, 234) would skip the error and the Failed status that follow it. The model takes both calls as succeeding.
- Async interleaving is not modelled. The un-awaited calls in `submitTransfer` and the un-awaited `submitTx(ledger)` are treated as sequential traces. Their unobserved rejections are modelled as "nothing further happens".
- Message-bus failures in the Ledger screen are not modelled for the reveal-bytes request, the stored-key query, the chain queries, `storePublicKey` and the transaction-bytes request. Only the failure to send the signed reveal is modelled. A `ledger.sign` that throws instead of returning a status word is not modelled. `Ledger.init` is modelled as an outcome; an init that resolves to nothing is not modelled.
- `LedgerError.NoErrors` is taken as 0x9000, the status word the Ledger library reports on success. The library's `common.ts` is not part of this model.
- `txType` is modelled as present or absent. The truthiness of a numeric enum value is not modelled.
- Not modelled because they are UI or numeric-library concerns: React rendering, `setStatusInfo` progress strings, the `BigNumber` fee and gas limit of the reveal, and console logging. The one exception is the unsupported-target warning, which is an event.
- Keplr: the gas price steps 0.01, 0.025 and 0.03 are modelled as thousandths (10, 25, 30) rather than floating point. The token table entry is an argument. The port is modelled as a natural number or absent; string or fractional ports are not modelled.
- The lifecycle machine `Step`/`Replay` is the model's reference semantics for a listener of the broadcasts. It is not code from the repository.

=== FILE: common.dfy ===
/** Vocabulary shared by the wallet's background service, its Ledger approval
    screen and its Keplr bridge: optional values, what an awaited call into an
    unmodelled collaborator did, JavaScript truthiness of optional strings and
    the string an interpolated `Error` renders to. */
module Common {

  datatype Option<+T> = None | Some(value: T)

  /** The outcome of an awaited call whose body is not modelled: it returned,
      or it threw a value whose `${…}` rendering is `message`. */
  datatype Outcome = Ok | Err(message: string)

  datatype Result<+T, +E> = Success(value: T) | Failure(error: E)

  /** The transaction kinds the wallet submits. */
  datatype TxType =
    | Bond
    | Unbond
    | Withdraw
    | VoteProposal
    | Transfer
    | IbcTransfer
    | EthBridgeTransfer

  /** The lifecycle of a transaction as the wallet's screens show it. */
  datatype TxStatus = Unstarted | Pending | Completed | Failed

  /** JavaScript truthiness of an optional string: `undefined` and "" are falsy. */
  predicate Truthy(s: Option<string>) {
    s.Some? && s.value != ""
  }

  /** `${e}` for `e = new Error(message)`: the name "Error", followed by ": "
      and the message when the message is not empty. */
  function ErrorText(message: string): string {
    if message == "" then "Error" else "Error: " + message
  }

  predicate EndsWith(s: string, suffix: string) {
    |suffix| <= |s| && s[|s| - |suffix|..] == suffix
  }

  lemma EndsWithAfterPrefix(prefix: string, s: string, suffix: string)
    requires EndsWith(s, suffix)
    ensures EndsWith(prefix + s, suffix)
  {
    assert (prefix + s)[|prefix + s| - |suffix|..] == s[|s| - |suffix|..];
  }

  lemma ErrorTextEndsWithMessage(prefix: string, message: string)
    ensures EndsWith(ErrorText(prefix + message), message)
  {
    if prefix + message != "" {
      assert ErrorText(prefix + message) == ("Error: " + prefix) + message;
    }
  }
}

=== FILE: keplr.dfy ===
/** The bridge to the Keplr browser extension: detecting it, building the
    chain description it is asked to add (node URLs, bech32 prefixes, the
    staking and fee currency), and the calls that settle to `false` when the
    extension is absent. The extension's own calls are oracles: whether each
    one succeeded is an argument. */
module Keplr {
  import opened Common

  /** Where the chain's node listens; `port` is the configured number, or
      None when the configuration leaves it out. */
  datatype Network = Network(protocol: string, url: string, port: Option<nat>)

  datatype Chain = Chain(id: string, alias: string, network: Network)

  /** The token the chain is presented with (the "ATOM" entry of the token
      table): its symbol, price-feed id and BIP-44 coin type. */
  datatype Token = Token(symbol: string, coinGeckoId: string, coinType: nat)

  datatype Currency = Currency(coinDenom: string, coinMinimalDenom: string, coinDecimals: nat, coinGeckoId: string)

  datatype Bech32Config = Bech32Config(
    accAddr: string,
    accPub: string,
    valAddr: string,
    valPub: string,
    consAddr: string,
    consPub: string)

  /** Gas prices in thousandths of the fee currency's unit. */
  datatype GasPriceStep = GasPriceStep(lowMilli: nat, averageMilli: nat, highMilli: nat)

  datatype ChainInfo = ChainInfo(
    rpc: string,
    rest: string,
    chainId: string,
    chainName: string,
    stakeCurrency: Currency,
    bip44CoinType: nat,
    bech32Config: Bech32Config,
    currencies: seq<Currency>,
    feeCurrencies: seq<Currency>,
    gasPriceStep: GasPriceStep)

  /** The `keplr` object the page sees: missing, or present with or without
      `experimentalSuggestChain`. */
  datatype Extension = Absent | Present(canSuggestChain: bool)

  /** How a returned promise settles. */
  datatype Settled = Resolved(value: bool) | Rejected(reason: bool)

  // ---------------------------------------------------------------------------
  // Decimal rendering of the port
  // ---------------------------------------------------------------------------

  predicate IsDigits(s: string) {
    forall i | 0 <= i < |s| :: '0' <= s[i] <= '9'
  }

  /** The decimal digits of `n`, as string concatenation renders a number. */
  function NatToString(n: nat): (s: string)
    ensures |s| > 0 && IsDigits(s)
    decreases n
  {
    if n < 10 then ["0123456789"[n]]
    else NatToString(n / 10) + ["0123456789"[n % 10]]
  }

  /** The number a string of decimal digits denotes. */
  function DigitsValue(s: string): nat
    requires IsDigits(s)
    decreases |s|
  {
    if s == [] then 0
    else 10 * DigitsValue(s[..|s| - 1]) + (s[|s| - 1] as int - '0' as int)
  }

  lemma {:induction false} DigitsRoundTrip(n: nat)
    ensures DigitsValue(NatToString(n)) == n
    decreases n
  {
    var s := NatToString(n);
    if n >= 10 {
      DigitsRoundTrip(n / 10);
      assert s[..|s| - 1] == NatToString(n / 10);
    }
  }

  // ---------------------------------------------------------------------------
  // detect and the node URLs
  // ---------------------------------------------------------------------------

  /** Keplr is usable exactly when it is present and can be asked to add a
      chain. */
  function Detect(keplr: Extension): (r: bool)
    ensures r <==> keplr.Present? && keplr.canSuggestChain
  {
    keplr != Absent && keplr.canSuggestChain
  }

  /** JavaScript truthiness of the port: unset and 0 are falsy. */
  predicate HasPort(network: Network) {
    network.port.Some? && network.port.value != 0
  }

  function BaseUrl(network: Network): string {
    network.protocol + "://" + network.url
  }

  /** The REST port every chain is given, whatever its configured port. */
  const RestPort: nat := 1317

  /** `protocol://url`, followed by ":" and the port only when the port is
      truthy. */
  function RpcUrl(network: Network): (r: string)
    ensures |BaseUrl(network)| <= |r| && r[..|BaseUrl(network)|] == BaseUrl(network)
    ensures HasPort(network) <==> |r| > |BaseUrl(network)|
    ensures HasPort(network) ==> r == BaseUrl(network) + ":" + NatToString(network.port.value)
    ensures !HasPort(network) ==> r == BaseUrl(network)
  {
    BaseUrl(network) + (if HasPort(network) then ":" + NatToString(network.port.value) else "")
  }

  function RestUrl(network: Network): (r: string)
    ensures r == BaseUrl(network) + ":1317"
  {
    BaseUrl(network) + ":" + NatToString(RestPort)
  }

  /** The RPC URL extends `protocol://url`, and what follows it is either
      nothing (no truthy port) or ":" and the digits of the port, which read
      back as the port. */
  lemma RpcUrlCarriesPort(network: Network)
    ensures var r := RpcUrl(network);
      var base := BaseUrl(network);
      && |base| <= |r| && r[..|base|] == base
      && (HasPort(network) <==> |r| > |base|)
      && (HasPort(network) ==>
            r[|base|] == ':' && IsDigits(r[|base| + 1..]) && DigitsValue(r[|base| + 1..]) == network.port.value)
  {
    var r := RpcUrl(network);
    var base := BaseUrl(network);
    if HasPort(network) {
      assert r[|base| + 1..] == NatToString(network.port.value);
      DigitsRoundTrip(network.port.value);
    }
  }

  lemma RestPortDigits()
    ensures NatToString(RestPort) == "1317"
    ensures DigitsValue("1317") == RestPort
  {
    assert "1317"[..3] == "131" && "131"[..2] == "13" && "13"[..1] == "1" && "1"[..0] == "";
  }

  lemma CancelPrefix(base: string, x: string, y: string)
    requires base + x == base + y
    ensures x == y
  {
    assert x == (base + x)[|base|..];
    assert y == (base + y)[|base|..];
  }

  /** The RPC and REST URLs coincide exactly when the configured port is the
      REST port. */
  lemma RpcIsRestExactlyOnRestPort(network: Network)
    ensures RpcUrl(network) == RestUrl(network) <==> network.port == Some(RestPort)
  {
    var base := BaseUrl(network);
    RestPortDigits();
    if RpcUrl(network) == RestUrl(network) && HasPort(network) {
      var digits := NatToString(network.port.value);
      CancelPrefix(base + ":", digits, "1317");
      DigitsRoundTrip(network.port.value);
    }
  }

  // ---------------------------------------------------------------------------
  // The chain description
  // ---------------------------------------------------------------------------

  const AccountPrefix := "cosmos"

  function Bech32ConfigFor(): (c: Bech32Config)
    ensures c.accAddr == AccountPrefix
    ensures c.accPub == AccountPrefix + "pub"
    ensures c.valAddr == AccountPrefix + "valoper"
    ensures c.valPub == AccountPrefix + "valoperpub"
    ensures c.consAddr == AccountPrefix + "valcons"
    ensures c.consPub == AccountPrefix + "valconspub"
  {
    Bech32Config(
      AccountPrefix,
      AccountPrefix + "pub",
      AccountPrefix + "valoper",
      AccountPrefix + "valoperpub",
      AccountPrefix + "valcons",
      AccountPrefix + "valconspub")
  }

  function Bech32Prefixes(c: Bech32Config): seq<string> {
    [c.accAddr, c.accPub, c.valAddr, c.valPub, c.consAddr, c.consPub]
  }

  /** All six prefixes start with "cosmos" and no two are equal, so every
      kind of address and key is told apart by its prefix. */
  lemma Bech32PrefixesDistinct()
    ensures var ps := Bech32Prefixes(Bech32ConfigFor());
      && (forall i | 0 <= i < |ps| :: |AccountPrefix| <= |ps[i]| && ps[i][..|AccountPrefix|] == AccountPrefix)
      && (forall i, j | 0 <= i < j < |ps| :: ps[i] != ps[j])
  {
    var ps := Bech32Prefixes(Bech32ConfigFor());
    forall i, j | 0 <= i < j < |ps|
      ensures ps[i] != ps[j]
    {
      assert |ps[0]| == 6 && |ps[1]| == 9 && |ps[2]| == 13 && |ps[3]| == 16 && |ps[4]| == 13 && |ps[5]| == 16;
      assert ps[2][9] == 'o' && ps[4][9] == 'c';
      assert ps[3][9] == 'o' && ps[5][9] == 'c';
    }
  }

  const MinimalDenom := "uatom"
  const Decimals: nat := 6

  function CurrencyFor(token: Token): Currency {
    Currency(token.symbol, MinimalDenom, Decimals, token.coinGeckoId)
  }

  /** The description of `chain` that Keplr is asked to add. */
  function ChainInfoFor(chain: Chain, token: Token): (info: ChainInfo)
    ensures info.rpc == RpcUrl(chain.network) && info.rest == RestUrl(chain.network)
    ensures info.chainId == chain.id && info.chainName == chain.alias
    ensures info.bip44CoinType == token.coinType
    ensures info.currencies == [info.stakeCurrency] && info.feeCurrencies == [info.stakeCurrency]
    ensures info.stakeCurrency.coinDenom == token.symbol
    ensures info.stakeCurrency.coinMinimalDenom == "uatom" && info.stakeCurrency.coinDecimals == 6
    ensures info.stakeCurrency.coinGeckoId == token.coinGeckoId
    ensures info.bech32Config == Bech32ConfigFor()
    ensures info.gasPriceStep == GasPriceStep(10, 25, 30)
    ensures info.gasPriceStep.lowMilli <= info.gasPriceStep.averageMilli <= info.gasPriceStep.highMilli
  {
    var currency := CurrencyFor(token);
    ChainInfo(
      RpcUrl(chain.network),
      RestUrl(chain.network),
      chain.id,
      chain.alias,
      currency,
      token.coinType,
      Bech32ConfigFor(),
      [currency],
      [currency],
      GasPriceStep(10, 25, 30))
  }

  // ---------------------------------------------------------------------------
  // suggestChain, enable, getKey
  // ---------------------------------------------------------------------------

  /** The chain description handed to Keplr, if any, and how the call settled. */
  datatype Suggestion = Suggestion(sent: Option<ChainInfo>, settled: Settled)

  /** Ask Keplr to add the chain; `accepted` is whether its promise resolved. */
  function SuggestChain(keplr: Extension, chain: Chain, token: Token, accepted: bool): (r: Suggestion)
    ensures !Detect(keplr) ==> r == Suggestion(None, Rejected(false))
    ensures Detect(keplr) ==> r.sent == Some(ChainInfoFor(chain, token))
    ensures r.settled == Resolved(true) <==> Detect(keplr) && accepted
    ensures r.settled.Resolved? ==> r.settled.value
    ensures r.settled.Rejected? ==> !r.settled.reason
  {
    if keplr.Present? && keplr.canSuggestChain then
      Suggestion(Some(ChainInfoFor(chain, token)), if accepted then Resolved(true) else Rejected(false))
    else Suggestion(None, Rejected(false))
  }

  datatype KeplrRequest = Enable | GetKey

  /** The request sent to Keplr, with the chain id it names, if any. */
  datatype Call = Call(sent: Option<(KeplrRequest, string)>, settled: Settled)

  /** `enable` and `getKey`: both settle to `false` without calling anything
      when Keplr is absent, and otherwise forward the chain id and settle by
      Keplr's answer. Neither needs the suggest capability. */
  function RequestWithChainId(request: KeplrRequest, keplr: Extension, chain: Chain, accepted: bool): (r: Call)
    ensures keplr.Absent? ==> r == Call(None, Resolved(false))
    ensures keplr.Present? ==> r.sent == Some((request, chain.id))
    ensures r.settled == Resolved(true) <==> keplr.Present? && accepted
    ensures keplr.Present? && !accepted ==> r.settled == Rejected(false)
  {
    match keplr
    case Absent => Call(None, Resolved(false))
    case Present(_) => Call(Some((request, chain.id)), if accepted then Resolved(true) else Rejected(false))
  }

  /** Without the extension the two kinds of call settle differently: asking
      to add the chain rejects with `false`, while `enable` and `getKey`
      resolve to `false`; neither sends anything. An extension without the
      suggest capability still receives `enable` and `getKey`. */
  lemma AbsentKeplrSettlesDifferently(request: KeplrRequest, keplr: Extension, chain: Chain, token: Token, accepted: bool)
    ensures keplr.Absent? ==>
      && SuggestChain(keplr, chain, token, accepted).settled == Rejected(false)
      && RequestWithChainId(request, keplr, chain, accepted).settled == Resolved(false)
      && SuggestChain(keplr, chain, token, accepted).sent.None?
      && RequestWithChainId(request, keplr, chain, accepted).sent.None?
    ensures keplr == Present(false) ==>
      && SuggestChain(keplr, chain, token, accepted).sent.None?
      && RequestWithChainId(request, keplr, chain, accepted).sent.Some?
  {
  }
}

=== FILE: keyring_service.dfy ===
/** The background keyring service: the broadcasts it emits around every
    transaction it submits, how it routes a transfer to the host's signing
    worker, the broadcasts that follow account operations, the duplicate-address
    guard of `saveLedger`, and the search for a parent account by public key.

    Every call into the keyring proper, the SDK or the host browser is an
    oracle argument; what the service does with the answer is an ordered trace
    of `Event`s plus the way its promise settles. */
module KeyRingService {
  import opened Common

  /** A broadcast to connected tabs, or another observable step of the service. */
  datatype Event =
    | StartTx(msgId: string, txType: TxType)
    | KeyringCall(txType: TxType)
    | CompleteTx(msgId: string, txType: TxType, success: bool, payload: Option<string>)
    | UpdateAccounts
    | UpdateBalance
    | UpdateStaking
    | UpdateProposals
    | CreateOffscreenDocument
    | SendToOffscreen(msgId: string)
    | StartWebWorker(msgId: string)
    | WarnUnsupported

  /** How a service method's promise settles. `Rejected` carries the message
      of the `Error` the service itself constructs and throws; `Rethrown`
      passes on a collaborator's own error unchanged, given by its `${…}`
      rendering. */
  datatype Reply = Resolved | Rejected(message: string) | Rethrown(rendering: string)

  datatype Run = Run(events: seq<Event>, reply: Reply)

  predicate IsRefresh(e: Event) {
    e.UpdateAccounts? || e.UpdateBalance? || e.UpdateStaking? || e.UpdateProposals?
  }

  // ---------------------------------------------------------------------------
  // Reference semantics: the lifecycle a listener derives from the broadcasts
  // ---------------------------------------------------------------------------

  /** One transition of the lifecycle of transaction `msgId`: `startTx` moves an
      unstarted transaction to Pending (a repeated start changes nothing), and
      `completeTx` moves a pending one to Completed or Failed by its success
      flag; terminal states never move again. */
  function Step(s: TxStatus, msgId: string, e: Event): TxStatus {
    match e
    case StartTx(m, _) => if m == msgId && s == Unstarted then Pending else s
    case CompleteTx(m, _, ok, _) =>
      if m == msgId && s == Pending then (if ok then Completed else Failed) else s
    case _ => s
  }

  function Replay(s: TxStatus, msgId: string, events: seq<Event>): TxStatus
    decreases |events|
  {
    if events == [] then s else Replay(Step(s, msgId, events[0]), msgId, events[1..])
  }

  /** Does `e` concern the lifecycle of transaction `msgId`? */
  predicate Touches(e: Event, msgId: string) {
    (e.StartTx? || e.CompleteTx?) && e.msgId == msgId
  }

  function CountCompletions(events: seq<Event>, msgId: string): nat
    decreases |events|
  {
    if events == [] then 0
    else (if events[0].CompleteTx? && events[0].msgId == msgId then 1 else 0)
         + CountCompletions(events[1..], msgId)
  }

  lemma {:induction false} ReplayAppend(s: TxStatus, msgId: string, a: seq<Event>, b: seq<Event>)
    ensures Replay(s, msgId, a + b) == Replay(Replay(s, msgId, a), msgId, b)
    decreases |a|
  {
    if a == [] {
      assert a + b == b;
    } else {
      assert (a + b)[1..] == a[1..] + b;
      ReplayAppend(Step(s, msgId, a[0]), msgId, a[1..], b);
    }
  }

  lemma {:induction false} ReplayUntouched(s: TxStatus, msgId: string, events: seq<Event>)
    requires forall i | 0 <= i < |events| :: !Touches(events[i], msgId)
    ensures Replay(s, msgId, events) == s
    ensures CountCompletions(events, msgId) == 0
    decreases |events|
  {
    if events != [] {
      assert !Touches(events[0], msgId);
      ReplayUntouched(s, msgId, events[1..]);
    }
  }

  lemma {:induction false} CountCompletionsAppend(a: seq<Event>, b: seq<Event>, msgId: string)
    ensures CountCompletions(a + b, msgId) == CountCompletions(a, msgId) + CountCompletions(b, msgId)
    decreases |a|
  {
    if a == [] {
      assert a + b == b;
    } else {
      assert (a + b)[1..] == a[1..] + b;
      CountCompletionsAppend(a[1..], b, msgId);
    }
  }

  lemma ReplayCons(s: TxStatus, msgId: string, e: Event, rest: seq<Event>)
    ensures Replay(s, msgId, [e] + rest) == Replay(Step(s, msgId, e), msgId, rest)
    ensures CountCompletions([e] + rest, msgId)
      == (if e.CompleteTx? && e.msgId == msgId then 1 else 0) + CountCompletions(rest, msgId)
  {
    assert ([e] + rest)[1..] == rest;
  }

  // ---------------------------------------------------------------------------
  // submitBond, submitUnbond, submitWithdraw, submitVoteProposal,
  // submitIbcTransfer, submitEthBridgeTransfer
  // ---------------------------------------------------------------------------

  /** Kinds whose submit method emits `completeTx` itself; a transfer's
      completion is reported later by the signing worker. */
  predicate CompletesInline(t: TxType) {
    t != Transfer
  }

  /** The broadcasts that follow a successful `completeTx`. */
  function Refreshes(t: TxType): seq<Event> {
    match t
    case Bond | Unbond | Withdraw => [UpdateStaking, UpdateBalance]
    case VoteProposal => [UpdateProposals]
    case Transfer | IbcTransfer | EthBridgeTransfer => [UpdateBalance]
  }

  /** The text each submit method puts in front of the keyring's error. */
  function FailurePrefix(t: TxType): string {
    match t
    case Bond => "Unable to submit bond tx! "
    case Unbond => "Unable to submit unbond tx! "
    case Withdraw => "Unable to submit withdraw tx! "
    case VoteProposal => "Unable to submit vote proposal tx! "
    case Transfer => "Unable to submit the transfer! "
    case IbcTransfer => "Unable to encode IBC transfer! "
    case EthBridgeTransfer => "Unable to encode Eth Bridge transfer! "
  }

  /** The common shape: announce the transaction, run the keyring operation,
      then report exactly one completion whose flag is the outcome; refresh on
      success, rethrow a wrapped error on failure. */
  function SubmitWithCompletion(t: TxType, msgId: string, keyring: Outcome): Run
    requires CompletesInline(t)
  {
    var started := [StartTx(msgId, t), KeyringCall(t)];
    match keyring
    case Ok => Run(started + [CompleteTx(msgId, t, true, None)] + Refreshes(t), Resolved)
    case Err(e) => Run(started + [CompleteTx(msgId, t, false, Some(e))], Rejected(FailurePrefix(t) + e))
  }

  function SubmitBond(msgId: string, keyring: Outcome): (r: Run)
    ensures keyring.Ok? ==> r == Run([StartTx(msgId, Bond), KeyringCall(Bond),
      CompleteTx(msgId, Bond, true, None), UpdateStaking, UpdateBalance], Resolved)
    ensures keyring.Err? ==> r == Run([StartTx(msgId, Bond), KeyringCall(Bond),
      CompleteTx(msgId, Bond, false, Some(keyring.message))],
      Rejected("Unable to submit bond tx! " + keyring.message))
  {
    SubmitWithCompletion(Bond, msgId, keyring)
  }

  function SubmitUnbond(msgId: string, keyring: Outcome): (r: Run)
    ensures keyring.Ok? ==> r == Run([StartTx(msgId, Unbond), KeyringCall(Unbond),
      CompleteTx(msgId, Unbond, true, None), UpdateStaking, UpdateBalance], Resolved)
    ensures keyring.Err? ==> r == Run([StartTx(msgId, Unbond), KeyringCall(Unbond),
      CompleteTx(msgId, Unbond, false, Some(keyring.message))],
      Rejected("Unable to submit unbond tx! " + keyring.message))
  {
    SubmitWithCompletion(Unbond, msgId, keyring)
  }

  function SubmitWithdraw(msgId: string, keyring: Outcome): (r: Run)
    ensures keyring.Ok? ==> r == Run([StartTx(msgId, Withdraw), KeyringCall(Withdraw),
      CompleteTx(msgId, Withdraw, true, None), UpdateStaking, UpdateBalance], Resolved)
    ensures keyring.Err? ==> r == Run([StartTx(msgId, Withdraw), KeyringCall(Withdraw),
      CompleteTx(msgId, Withdraw, false, Some(keyring.message))],
      Rejected("Unable to submit withdraw tx! " + keyring.message))
  {
    SubmitWithCompletion(Withdraw, msgId, keyring)
  }

  function SubmitVoteProposal(msgId: string, keyring: Outcome): (r: Run)
    ensures keyring.Ok? ==> r == Run([StartTx(msgId, VoteProposal), KeyringCall(VoteProposal),
      CompleteTx(msgId, VoteProposal, true, None), UpdateProposals], Resolved)
    ensures keyring.Err? ==> r == Run([StartTx(msgId, VoteProposal), KeyringCall(VoteProposal),
      CompleteTx(msgId, VoteProposal, false, Some(keyring.message))],
      Rejected("Unable to submit vote proposal tx! " + keyring.message))
  {
    SubmitWithCompletion(VoteProposal, msgId, keyring)
  }

  function SubmitIbcTransfer(msgId: string, keyring: Outcome): (r: Run)
    ensures keyring.Ok? ==> r == Run([StartTx(msgId, IbcTransfer), KeyringCall(IbcTransfer),
      CompleteTx(msgId, IbcTransfer, true, None), UpdateBalance], Resolved)
    ensures keyring.Err? ==> r == Run([StartTx(msgId, IbcTransfer), KeyringCall(IbcTransfer),
      CompleteTx(msgId, IbcTransfer, false, Some(keyring.message))],
      Rejected("Unable to encode IBC transfer! " + keyring.message))
  {
    SubmitWithCompletion(IbcTransfer, msgId, keyring)
  }

  function SubmitEthBridgeTransfer(msgId: string, keyring: Outcome): (r: Run)
    ensures keyring.Ok? ==> r == Run([StartTx(msgId, EthBridgeTransfer), KeyringCall(EthBridgeTransfer),
      CompleteTx(msgId, EthBridgeTransfer, true, None), UpdateBalance], Resolved)
    ensures keyring.Err? ==> r == Run([StartTx(msgId, EthBridgeTransfer), KeyringCall(EthBridgeTransfer),
      CompleteTx(msgId, EthBridgeTransfer, false, Some(keyring.message))],
      Rejected("Unable to encode Eth Bridge transfer! " + keyring.message))
  {
    SubmitWithCompletion(EthBridgeTransfer, msgId, keyring)
  }

  /** A trace that starts `msgId`, calls the keyring, completes `msgId`, and
      then only refreshes, completes it once and ends in the state its flag
      names. */
  lemma {:induction false} StartCallCompleteLifecycle(msgId: string, t: TxType, c: Event, tail: seq<Event>)
    requires c.CompleteTx? && c.msgId == msgId
    requires forall i | 0 <= i < |tail| :: !Touches(tail[i], msgId)
    ensures var events := [StartTx(msgId, t)] + ([KeyringCall(t)] + ([c] + tail));
      && CountCompletions(events, msgId) == 1
      && Replay(Unstarted, msgId, events) == (if c.success then Completed else Failed)
  {
    ReplayUntouched(if c.success then Completed else Failed, msgId, tail);
    ReplayCons(Pending, msgId, c, tail);
    ReplayCons(Pending, msgId, KeyringCall(t), [c] + tail);
    ReplayCons(Unstarted, msgId, StartTx(msgId, t), [KeyringCall(t)] + ([c] + tail));
  }

  /** In a trace that starts `msgId`, calls the keyring, completes `msgId` and
      then only refreshes, the completion is the only one and sits at index
      2, and without refreshes nothing is refreshed. */
  lemma StartCallCompleteShape(msgId: string, t: TxType, c: Event, tail: seq<Event>)
    requires c.CompleteTx? && c.msgId == msgId
    requires forall i | 0 <= i < |tail| :: IsRefresh(tail[i])
    ensures var events := [StartTx(msgId, t)] + ([KeyringCall(t)] + ([c] + tail));
      && |events| == 3 + |tail|
      && events[0] == StartTx(msgId, t) && events[1] == KeyringCall(t) && events[2] == c
      && CountCompletions(events, msgId) == 1
      && (forall i | 0 <= i < |events| && events[i].CompleteTx? :: i == 2)
      && (tail == [] ==> forall i | 0 <= i < |events| :: !IsRefresh(events[i]))
  {
    var events := [StartTx(msgId, t)] + ([KeyringCall(t)] + ([c] + tail));
    assert forall i | 3 <= i < |events| :: events[i] == tail[i - 3];
    StartCallCompleteLifecycle(msgId, t, c, tail);
  }

  lemma SubmitWithCompletionShape(t: TxType, msgId: string, keyring: Outcome)
    requires CompletesInline(t)
    ensures var r := SubmitWithCompletion(t, msgId, keyring);
      && |r.events| >= 3
      && r.events == [StartTx(msgId, t)] + ([KeyringCall(t)] + ([r.events[2]] + r.events[3..]))
      && r.events[2] == CompleteTx(msgId, t, keyring.Ok?, if keyring.Ok? then None else Some(keyring.message))
      && r.events[3..] == (if keyring.Ok? then Refreshes(t) else [])
      && (forall i | 3 <= i < |r.events| :: !Touches(r.events[i], msgId) && IsRefresh(r.events[i]))
      && (keyring.Err? <==> r.reply.Rejected?)
  {
  }

  /** Every inline-completing submit announces the transaction before the
      keyring runs, then completes it exactly once, with the outcome as the
      success flag and the error text as payload on failure; a failure emits no
      refresh broadcast and rejects. */
  lemma InlineSubmitCompletesOnce(t: TxType, msgId: string, keyring: Outcome)
    requires CompletesInline(t)
    ensures var r := SubmitWithCompletion(t, msgId, keyring);
      && |r.events| >= 3
      && r.events[0] == StartTx(msgId, t)
      && r.events[1] == KeyringCall(t)
      && CountCompletions(r.events, msgId) == 1
      && (forall i | 0 <= i < |r.events| && r.events[i].CompleteTx? ::
            i == 2 && r.events[i].success == keyring.Ok?)
      && (keyring.Err? ==> r.events[2].payload == Some(keyring.message))
      && (keyring.Err? <==> r.reply.Rejected?)
      && (keyring.Err? ==> forall i | 0 <= i < |r.events| :: !IsRefresh(r.events[i]))
  {
    var r := SubmitWithCompletion(t, msgId, keyring);
    SubmitWithCompletionShape(t, msgId, keyring);
    var tail := r.events[3..];
    assert forall i | 0 <= i < |tail| :: tail[i] == r.events[i + 3];
    StartCallCompleteShape(msgId, t, r.events[2], tail);
  }

  /** Replaying the broadcasts of an inline-completing submit takes a fresh
      transaction to Completed when the keyring returned and to Failed when it
      threw. */
  lemma InlineSubmitReachesTerminal(t: TxType, msgId: string, keyring: Outcome)
    requires CompletesInline(t)
    ensures Replay(Unstarted, msgId, SubmitWithCompletion(t, msgId, keyring).events)
      == (if keyring.Ok? then Completed else Failed)
  {
    var r := SubmitWithCompletion(t, msgId, keyring);
    SubmitWithCompletionShape(t, msgId, keyring);
    var tail := r.events[3..];
    assert forall i | 0 <= i < |tail| :: tail[i] == r.events[i + 3];
    StartCallCompleteLifecycle(msgId, t, r.events[2], tail);
  }

  /** On success bond, unbond and withdraw emit `completeTx(true)`, then
      `updateStaking`, then `updateBalance`; vote proposal emits only
      `updateProposals` after it, and the IBC and Ethereum-bridge transfers only
      `updateBalance`. */
  lemma RefreshesAfterSuccess(t: TxType, msgId: string)
    requires CompletesInline(t)
    ensures var ev := SubmitWithCompletion(t, msgId, Ok).events;
      && ev[2] == CompleteTx(msgId, t, true, None)
      && (t in {Bond, Unbond, Withdraw} ==> ev[3..] == [UpdateStaking, UpdateBalance])
      && (t == VoteProposal ==> ev[3..] == [UpdateProposals])
      && (t in {IbcTransfer, EthBridgeTransfer} ==> ev[3..] == [UpdateBalance])
  {
  }

  // ---------------------------------------------------------------------------
  // submitTransfer, submitTransferChrome, submitTransferFirefox,
  // handleTransferCompleted
  // ---------------------------------------------------------------------------

  /** What the offscreen document answered: nothing, or a record whose `error`
      field may be set. */
  datatype WorkerReply = NoReply | Answer(error: Option<WorkerError>)

  datatype WorkerError = WorkerError(message: Option<string>)

  const WorkerFallbackMessage := "Error in web worker"

  /** The chrome route: make sure the offscreen document exists, send it the
      transfer, and turn an `error` in its answer into a rejection. */
  function SubmitTransferChrome(msgId: string, hasOffscreenDocument: bool, reply: WorkerReply): (r: Run)
    ensures |r.events| > 0 && r.events[|r.events| - 1] == SendToOffscreen(msgId)
    ensures CreateOffscreenDocument in r.events <==> !hasOffscreenDocument
    ensures multiset(r.events)[CreateOffscreenDocument] <= 1
    ensures r.reply == Resolved <==> !(reply.Answer? && reply.error.Some?)
    ensures r.reply.Rejected? <==> reply.Answer? && reply.error.Some?
    ensures forall i | 0 <= i < |r.events| ::
      r.events[i] == CreateOffscreenDocument || r.events[i] == SendToOffscreen(msgId)
    ensures |r.events| == (if hasOffscreenDocument then 1 else 2)
    ensures r.reply.Rejected? ==> r.reply.message != ""
    ensures reply.Answer? && reply.error.Some? && Truthy(reply.error.value.message) ==>
      r.reply == Rejected(reply.error.value.message.value)
    ensures reply.Answer? && reply.error.Some? && !Truthy(reply.error.value.message) ==>
      r.reply == Rejected(WorkerFallbackMessage)
  {
    var created := if hasOffscreenDocument then [] else [CreateOffscreenDocument];
    var events := created + [SendToOffscreen(msgId)];
    match reply
    case Answer(Some(e)) =>
      Run(events, Rejected(if Truthy(e.message) then e.message.value else WorkerFallbackMessage))
    case _ => Run(events, Resolved)
  }

  /** A run of chrome transfers in one host session, one after another: once
      the offscreen document exists it is reused. The session is sequential
      and nothing closes the document between requests
      (`closeOffscreenDocument` is not part of this model), so every request
      after the first finds the document in place. */
  function ChromeSession(hasOffscreenDocument: bool, requests: seq<(string, WorkerReply)>): seq<Event>
    decreases |requests|
  {
    if requests == [] then []
    else SubmitTransferChrome(requests[0].0, hasOffscreenDocument, requests[0].1).events
         + ChromeSession(true, requests[1..])
  }

  /** However many transfers a session sends, at most one offscreen document
      is created, and none when one already existed. */
  lemma {:induction false} OffscreenDocumentCreatedAtMostOnce(hasOffscreenDocument: bool, requests: seq<(string, WorkerReply)>)
    ensures multiset(ChromeSession(hasOffscreenDocument, requests))[CreateOffscreenDocument]
      == (if hasOffscreenDocument || requests == [] then 0 else 1)
    decreases |requests|
  {
    if requests != [] {
      OffscreenDocumentCreatedAtMostOnce(true, requests[1..]);
      var first := SubmitTransferChrome(requests[0].0, hasOffscreenDocument, requests[0].1).events;
      assert multiset(first)[CreateOffscreenDocument] == (if hasOffscreenDocument then 0 else 1);
    }
  }

  datatype Route = Offscreen | WebWorker | Unsupported

  /** The build target selects where the transfer is signed. */
  function RouteFor(target: string): Route {
    if target == "chrome" then Offscreen
    else if target == "firefox" then WebWorker
    else Unsupported
  }

  /** The `submit` callback the keyring invokes: it starts the signing work on
      the target's route without awaiting it, so the chrome route's rejection
      never reaches the caller. */
  function DispatchTransfer(target: string, msgId: string, hasOffscreenDocument: bool, reply: WorkerReply): (events: seq<Event>)
    ensures SendToOffscreen(msgId) in events <==> target == "chrome"
    ensures StartWebWorker(msgId) in events <==> target == "firefox"
    ensures WarnUnsupported in events <==> target != "chrome" && target != "firefox"
    ensures target != "chrome" && target != "firefox" ==> events == [WarnUnsupported]
    ensures target == "firefox" ==> events == [StartWebWorker(msgId)]
    ensures multiset(events)[SendToOffscreen(msgId)] + multiset(events)[StartWebWorker(msgId)]
      == (if target == "chrome" || target == "firefox" then 1 else 0)
    ensures forall i | 0 <= i < |events| :: !Touches(events[i], msgId) && !IsRefresh(events[i]) && !events[i].CompleteTx?
  {
    match RouteFor(target)
    case Offscreen => SubmitTransferChrome(msgId, hasOffscreenDocument, reply).events
    case WebWorker => [StartWebWorker(msgId)]
    case Unsupported => [WarnUnsupported]
  }

  /** What the keyring's transfer operation did: whether it invoked the
      `submit` callback, and how it settled. */
  datatype TransferKeyring = TransferKeyring(invokesSubmit: bool, outcome: Outcome)

  function SubmitTransfer(msgId: string, target: string, keyring: TransferKeyring,
                          hasOffscreenDocument: bool, reply: WorkerReply): (r: Run)
    ensures |r.events| >= 2 && r.events[0] == StartTx(msgId, Transfer) && r.events[1] == KeyringCall(Transfer)
    ensures forall i | 1 <= i < |r.events| :: !Touches(r.events[i], msgId)
    ensures forall i | 0 <= i < |r.events| :: !r.events[i].CompleteTx?
    ensures r.reply == Resolved <==> keyring.outcome.Ok?
    ensures keyring.outcome.Ok? ==> r.events[|r.events| - 1] == UpdateBalance
    ensures keyring.outcome.Err? ==>
      r.reply == Rejected("Unable to submit the transfer! " + keyring.outcome.message)
      && UpdateBalance !in r.events
    ensures SendToOffscreen(msgId) in r.events <==> keyring.invokesSubmit && target == "chrome"
    ensures StartWebWorker(msgId) in r.events <==> keyring.invokesSubmit && target == "firefox"
    ensures WarnUnsupported in r.events <==> keyring.invokesSubmit && target != "chrome" && target != "firefox"
    ensures multiset(r.events)[SendToOffscreen(msgId)] + multiset(r.events)[StartWebWorker(msgId)]
      == (if keyring.invokesSubmit && (target == "chrome" || target == "firefox") then 1 else 0)
    ensures multiset(r.events)[UpdateBalance] == (if keyring.outcome.Ok? then 1 else 0)
  {
    var dispatched := if keyring.invokesSubmit then DispatchTransfer(target, msgId, hasOffscreenDocument, reply) else [];
    var events := [StartTx(msgId, Transfer), KeyringCall(Transfer)] + dispatched
                  + (if keyring.outcome.Ok? then [UpdateBalance] else []);
    TransferTraceAround(msgId, dispatched, keyring.outcome.Ok?);
    match keyring.outcome
    case Ok => Run(events, Resolved)
    case Err(e) => Run(events, Rejected(FailurePrefix(Transfer) + e))
  }

  /** The trace `submitTransfer` builds around whatever its dispatch emitted:
      the dispatch neither touches the transaction nor completes nor refreshes
      anything, so the start comes first, nothing completes, `updateBalance`
      appears exactly on success (and last), and the dispatch's sends are
      exactly the trace's. */
  lemma TransferTraceAround(msgId: string, dispatched: seq<Event>, ok: bool)
    requires forall i | 0 <= i < |dispatched| ::
      !Touches(dispatched[i], msgId) && !IsRefresh(dispatched[i]) && !dispatched[i].CompleteTx?
    ensures var events := [StartTx(msgId, Transfer), KeyringCall(Transfer)] + dispatched
                          + (if ok then [UpdateBalance] else []);
      && |events| >= 2 && events[0] == StartTx(msgId, Transfer) && events[1] == KeyringCall(Transfer)
      && (forall i | 1 <= i < |events| :: !Touches(events[i], msgId))
      && (forall i | 0 <= i < |events| :: !events[i].CompleteTx?)
      && (ok ==> events[|events| - 1] == UpdateBalance)
      && (!ok ==> UpdateBalance !in events)
      && (SendToOffscreen(msgId) in events <==> SendToOffscreen(msgId) in dispatched)
      && (StartWebWorker(msgId) in events <==> StartWebWorker(msgId) in dispatched)
      && (WarnUnsupported in events <==> WarnUnsupported in dispatched)
      && multiset(events)[SendToOffscreen(msgId)] == multiset(dispatched)[SendToOffscreen(msgId)]
      && multiset(events)[StartWebWorker(msgId)] == multiset(dispatched)[StartWebWorker(msgId)]
      && multiset(events)[UpdateBalance] == (if ok then 1 else 0)
  {
    var events := [StartTx(msgId, Transfer), KeyringCall(Transfer)] + dispatched
                  + (if ok then [UpdateBalance] else []);
    assert forall i | 2 <= i < 2 + |dispatched| :: events[i] == dispatched[i - 2];
    assert forall i | 0 <= i < |dispatched| :: dispatched[i] == events[i + 2];
    assert UpdateBalance !in dispatched;
    assert events == [StartTx(msgId, Transfer), KeyringCall(Transfer)] + dispatched
                     + (if ok then [UpdateBalance] else []);
  }

  /** The worker's report that a transfer finished. */
  function HandleTransferCompleted(msgId: string, success: bool, payload: Option<string>): (r: Run)
    ensures CountCompletions(r.events, msgId) == 1
    ensures r.events[0] == CompleteTx(msgId, Transfer, success, payload)
    ensures r.events[1..] == Refreshes(Transfer)
    ensures r.reply == Resolved
  {
    var events := [CompleteTx(msgId, Transfer, success, payload)] + [UpdateBalance];
    ReplayCons(Unstarted, msgId, events[0], [UpdateBalance]);
    ReplayUntouched(Unstarted, msgId, [UpdateBalance]);
    Run(events, Resolved)
  }

  /** A trace that starts `msgId` and never touches it again leaves it
      Pending with no completion; a completion report appended to it
      completes it once, with the report's flag. */
  lemma {:induction false} StartedThenReported(msgId: string, t: TxType, rest: seq<Event>,
                                               success: bool, payload: Option<string>, after: seq<Event>)
    requires forall i | 0 <= i < |rest| :: !Touches(rest[i], msgId)
    requires forall i | 0 <= i < |after| :: !Touches(after[i], msgId)
    ensures var submitted := [StartTx(msgId, t)] + rest;
      var all := submitted + ([CompleteTx(msgId, t, success, payload)] + after);
      && Replay(Unstarted, msgId, submitted) == Pending
      && CountCompletions(submitted, msgId) == 0
      && CountCompletions(all, msgId) == 1
      && Replay(Unstarted, msgId, all) == (if success then Completed else Failed)
  {
    var submitted := [StartTx(msgId, t)] + rest;
    var handled := [CompleteTx(msgId, t, success, payload)] + after;
    ReplayCons(Unstarted, msgId, StartTx(msgId, t), rest);
    ReplayUntouched(Pending, msgId, rest);
    ReplayCons(Pending, msgId, handled[0], after);
    ReplayUntouched(if success then Completed else Failed, msgId, after);
    ReplayAppend(Unstarted, msgId, submitted, handled);
    CountCompletionsAppend(submitted, handled, msgId);
  }

  /** `submitTransfer` leaves the transaction Pending whatever the keyring did;
      only the worker's report completes it, exactly once, with its flag. */
  lemma TransferCompletesOnlyViaHandler(msgId: string, target: string, keyring: TransferKeyring,
                                        hasOffscreenDocument: bool, reply: WorkerReply,
                                        success: bool, payload: Option<string>)
    ensures var submitted := SubmitTransfer(msgId, target, keyring, hasOffscreenDocument, reply).events;
      var all := submitted + HandleTransferCompleted(msgId, success, payload).events;
      && Replay(Unstarted, msgId, submitted) == Pending
      && CountCompletions(submitted, msgId) == 0
      && CountCompletions(all, msgId) == 1
      && Replay(Unstarted, msgId, all) == (if success then Completed else Failed)
  {
    var submitted := SubmitTransfer(msgId, target, keyring, hasOffscreenDocument, reply).events;
    var handled := HandleTransferCompleted(msgId, success, payload).events;
    StartedThenHandled(msgId, submitted, handled, success, payload);
  }

  /** The composition behind `TransferCompletesOnlyViaHandler`, stated for any
      trace that starts the transfer and never touches it again, followed by
      any report that completes it and then leaves it alone. */
  lemma StartedThenHandled(msgId: string, submitted: seq<Event>, handled: seq<Event>,
                           success: bool, payload: Option<string>)
    requires |submitted| >= 1 && submitted[0] == StartTx(msgId, Transfer)
    requires forall i | 1 <= i < |submitted| :: !Touches(submitted[i], msgId)
    requires |handled| >= 1 && handled[0] == CompleteTx(msgId, Transfer, success, payload)
    requires forall i | 1 <= i < |handled| :: !Touches(handled[i], msgId)
    ensures Replay(Unstarted, msgId, submitted) == Pending
    ensures CountCompletions(submitted, msgId) == 0
    ensures CountCompletions(submitted + handled, msgId) == 1
    ensures Replay(Unstarted, msgId, submitted + handled) == (if success then Completed else Failed)
  {
    var rest := submitted[1..];
    var after := handled[1..];
    assert submitted == [StartTx(msgId, Transfer)] + rest;
    assert handled == [CompleteTx(msgId, Transfer, success, payload)] + after;
    assert forall i | 0 <= i < |rest| :: rest[i] == submitted[i + 1];
    assert forall i | 0 <= i < |after| :: after[i] == handled[i + 1];
    StartedThenReported(msgId, Transfer, rest, success, payload, after);
  }


  // ---------------------------------------------------------------------------
  // Account operations and their `updateAccounts` broadcasts
  // ---------------------------------------------------------------------------

  datatype AccountOp =
    | SaveAccountSecret
    | ScanAccounts
    | DeriveAccount
    | SetActiveAccount
    | DeleteAccount
    | RenameAccount

  /** The operations after which the service tells tabs to re-read accounts. */
  predicate BroadcastsAccounts(op: AccountOp) {
    op.SaveAccountSecret? || op.ScanAccounts? || op.DeriveAccount? || op.SetActiveAccount?
  }

  /** An account operation delegated to the keyring: its error propagates
      unchanged, and only a success is followed by `updateAccounts`. */
  function AccountOperation(op: AccountOp, keyring: Outcome): (r: Run)
    ensures r.reply == Resolved <==> keyring.Ok?
    ensures keyring.Err? ==> r == Run([], Rethrown(keyring.message))
    ensures UpdateAccounts in r.events <==> keyring.Ok? && BroadcastsAccounts(op)
    ensures forall i | 0 <= i < |r.events| :: r.events[i] == UpdateAccounts
    ensures |r.events| <= 1
  {
    match keyring
    case Ok => Run(if BroadcastsAccounts(op) then [UpdateAccounts] else [], Resolved)
    case Err(e) => Run([], Rethrown(e))
  }

  /** Account operations never concern a transaction: replaying their
      broadcasts leaves every transaction's lifecycle where it was, and they
      complete nothing. */
  lemma {:induction false} AccountOperationLeavesLifecycle(op: AccountOp, keyring: Outcome, s: TxStatus, msgId: string)
    ensures Replay(s, msgId, AccountOperation(op, keyring).events) == s
    ensures CountCompletions(AccountOperation(op, keyring).events, msgId) == 0
  {
    var events := AccountOperation(op, keyring).events;
    assert forall i | 0 <= i < |events| :: !Touches(events[i], msgId);
    ReplayUntouched(s, msgId, events);
  }

  // ---------------------------------------------------------------------------
  // saveLedger and findParentByPublicKey
  // ---------------------------------------------------------------------------

  datatype AccountType = Mnemonic | PrivateKey | Ledger

  datatype Bip44Path = Bip44Path(account: nat, change: nat, index: nat)

  datatype Account = Account(
    id: string,
    alias: string,
    address: string,
    publicKey: string,
    path: Bip44Path,
    parentId: Option<string>,
    accountType: AccountType)

  /** The keyring's accounts, looked up by address. */
  type AccountStore = map<string, Account>

  /** Every stored account sits under its own address. */
  predicate WellKeyed(store: AccountStore) {
    forall a | a in store :: store[a].address == a
  }

  /** Why `saveLedger` rejects: the address is already stored (the service's
      own error), or a keyring call threw, given by its `${…}` rendering. */
  datatype SaveLedgerError = AlreadyImported(address: string) | KeyringThrew(rendering: string)

  /** How the keyring's `storeLedger` answered: with the updated store, with
      `false`, or by throwing. */
  datatype StoreLedgerAnswer = Stored | Declined | StoreThrew(rendering: string)

  /** The store after `saveLedger` resolved, and the account it added; `None`
      when `storeLedger` resolved to `false`. */
  datatype Saved = Saved(store: AccountStore, account: Option<Account>)

  /** Store a Ledger account unless one already exists for its address. The
      hex public key is re-encoded by `encodePublicKey` (the bech32 encoder of
      the SDK) before it is stored. `lookup` is whether the keyring's
      `queryAccountByAddress` returned or threw, and `answer` is what its
      `storeLedger` did. */
  function SaveLedger(store: AccountStore, id: string, alias: string, address: string, publicKey: string,
                      encodePublicKey: string -> string, path: Bip44Path, parentId: Option<string>,
                      lookup: Outcome, answer: StoreLedgerAnswer)
    : (r: Result<Saved, SaveLedgerError>)
    ensures lookup.Err? ==> r == Failure(KeyringThrew(lookup.message))
    ensures r == Failure(AlreadyImported(address)) <==> lookup.Ok? && address in store
    ensures lookup.Ok? && address !in store && answer.StoreThrew? ==> r == Failure(KeyringThrew(answer.rendering))
    ensures r.Success? <==> lookup.Ok? && address !in store && !answer.StoreThrew?
    ensures r.Success? ==> (r.value.account.Some? <==> answer.Stored?)
    ensures r.Success? && r.value.account.None? ==> r.value.store == store
    ensures r.Success? && r.value.account.Some? ==>
      && r.value.account.value == Account(id, alias, address, encodePublicKey(publicKey), path, parentId, Ledger)
      && r.value.store.Keys == store.Keys + {address}
      && |r.value.store| == |store| + 1
      && r.value.store[address] == r.value.account.value
      && (forall a | a in store :: r.value.store[a] == store[a])
  {
    match lookup
    case Err(e) => Failure(KeyringThrew(e))
    case Ok =>
      if address in store then Failure(AlreadyImported(address))
      else
        match answer
        case StoreThrew(e) => Failure(KeyringThrew(e))
        case Declined => Success(Saved(store, None))
        case Stored =>
          var account := Account(id, alias, address, encodePublicKey(publicKey), path, parentId, Ledger);
          Success(Saved(store[address := account], Some(account)))
  }

  /** Saving keeps every account under its own address, and a second save of
      the same address is refused and stores nothing, whatever the keyring
      would answer. */
  lemma SaveLedgerKeepsAddressesUnique(store: AccountStore, id: string, id': string, alias: string, address: string,
                                       publicKey: string, encodePublicKey: string -> string, path: Bip44Path,
                                       parentId: Option<string>, lookup: Outcome, answer: StoreLedgerAnswer,
                                       answer': StoreLedgerAnswer)
    requires WellKeyed(store)
    ensures var r := SaveLedger(store, id, alias, address, publicKey, encodePublicKey, path, parentId, lookup, answer);
      r.Success? && r.value.account.Some? ==>
        && WellKeyed(r.value.store)
        && SaveLedger(r.value.store, id', alias, address, publicKey, encodePublicKey, path, parentId, Ok, answer')
           == Failure(AlreadyImported(address))
  {
  }

  /** The account `findParentByPublicKey` looks for: one carrying the key and
      no (truthy) parent id. */
  predicate IsParentWithKey(a: Account, publicKey: string) {
    a.publicKey == publicKey && !Truthy(a.parentId)
  }

  /** The first of the vault's records, in stored order, that holds
      `publicKey` and has no parent. */
  method FindParentByPublicKey(records: seq<Account>, publicKey: string) returns (r: Option<Account>)
    ensures r.None? <==> forall i | 0 <= i < |records| :: !IsParentWithKey(records[i], publicKey)
    ensures r.Some? ==> exists i | 0 <= i < |records| ::
      && records[i] == r.value
      && IsParentWithKey(r.value, publicKey)
      && forall j | 0 <= j < i :: !IsParentWithKey(records[j], publicKey)
  {
    var i := 0;
    while i < |records|
      invariant 0 <= i <= |records|
      invariant forall j | 0 <= j < i :: !IsParentWithKey(records[j], publicKey)
    {
      if IsParentWithKey(records[i], publicKey) {
        return Some(records[i]);
      }
      i := i + 1;
    }
    return None;
  }
}

=== FILE: ledger_approval.dfy ===
/** The approval screen that signs a staged transaction with a Ledger device.

    `handleSubmitTx` checks the device, moves to Pending, makes sure the source
    account's public key is revealed on chain (asking the local store, then
    the chain, and revealing it with a device-signed transaction when neither
    knows it), and hands over to `submitTx`, which has the device sign the
    original transaction and sends it. The device, the local key store and the
    chain are oracles: every answer they give is an argument, and what the
    screen does is an ordered list of `Action`s, the statuses it sets, and the
    error it shows. */
module LedgerApproval {
  import opened Common

  /** The part every device response shares: a status word and a message. */
  datatype Response = Response(returnCode: int, errorMessage: string)

  /** The status word of a successful device exchange (`LedgerError.NoErrors`). */
  const NoErrors: int := 0x9000

  /** The approval's details: which account signs, the message id, the public
      key to reveal, and the transaction kind; each may be missing. */
  datatype Details = Details(
    source: Option<string>,
    msgId: Option<string>,
    publicKey: Option<string>,
    txType: Option<TxType>)

  /** The device's answers: opening the transport, its status, and the
      signatures of the reveal and of the original transaction. */
  datatype Device = Device(init: Outcome, status: Response, revealSign: Response, txSign: Response)

  /** Whether the key is stored locally, the chain's answers before and after
      a reveal, and how sending the signed reveal went. */
  datatype Answers = Answers(
    pkStored: bool,
    pkBefore: Option<string>,
    revealSent: Outcome,
    pkAfter: Option<string>)

  datatype Action =
    | CloseTransport
    | QueryStoredPK(publicKey: string)
    | QueryChainPK(address: string, answer: Option<string>)
    | StorePK(publicKey: string)
    | SignReveal
    | SendSignedReveal
    | SignTx
    | SendSignedTx(msgId: string)
    | CloseTab

  /** What one press of "Submit" does: the actions in order, the statuses set
      in order, and the error shown, if any. */
  datatype Flow = Flow(actions: seq<Action>, statuses: seq<TxStatus>, error: Option<string>)

  /** The actions of a `try` block and the message of the `Error` it threw. */
  datatype Attempt = Attempt(actions: seq<Action>, thrown: Option<string>)

  function FinalStatus(f: Flow): TxStatus {
    if f.statuses == [] then Unstarted else f.statuses[|f.statuses| - 1]
  }

  // ---------------------------------------------------------------------------
  // revealPk
  // ---------------------------------------------------------------------------

  const RevealWrapPrefix := "Unable to parse tx on Ledger: "
  const RevealSignPrefix := "Reveal PK error encountered: "
  const RequesterPrefix := "Requester error: "

  /** Have the device sign a reveal of the public key and send it; a refused
      signature or a failed send throws, wrapped once more. */
  function RevealPk(sign: Response, sent: Outcome): (r: Attempt)
    ensures |r.actions| >= 1 && r.actions[0] == SignReveal
    ensures SendSignedReveal in r.actions <==> sign.returnCode == NoErrors
    ensures r.thrown.None? <==> sign.returnCode == NoErrors && sent.Ok?
    ensures sign.returnCode != NoErrors ==>
      && r.actions == [SignReveal]
      && r.thrown == Some(RevealWrapPrefix + ErrorText(RevealSignPrefix + sign.errorMessage))
    ensures sign.returnCode == NoErrors && sent.Err? ==>
      r.thrown == Some(RevealWrapPrefix + ErrorText(RequesterPrefix + sent.message))
  {
    if sign.returnCode != NoErrors then
      Attempt([SignReveal], Some(RevealWrapPrefix + ErrorText(RevealSignPrefix + sign.errorMessage)))
    else
      match sent
      case Ok => Attempt([SignReveal, SendSignedReveal], None)
      case Err(e) => Attempt([SignReveal, SendSignedReveal], Some(RevealWrapPrefix + ErrorText(RequesterPrefix + e)))
  }

  /** Whatever stops the reveal, its message ends the error it throws. */
  lemma RevealErrorKeepsCause(sign: Response, sent: Outcome)
    requires sign.returnCode != NoErrors || sent.Err?
    ensures var r := RevealPk(sign, sent);
      r.thrown.Some? && EndsWith(r.thrown.value, if sign.returnCode != NoErrors then sign.errorMessage else sent.message)
  {
    if sign.returnCode != NoErrors {
      ErrorTextEndsWithMessage(RevealSignPrefix, sign.errorMessage);
      EndsWithAfterPrefix(RevealWrapPrefix, ErrorText(RevealSignPrefix + sign.errorMessage), sign.errorMessage);
    } else {
      ErrorTextEndsWithMessage(RequesterPrefix, sent.message);
      EndsWithAfterPrefix(RevealWrapPrefix, ErrorText(RequesterPrefix + sent.message), sent.message);
    }
  }

  // ---------------------------------------------------------------------------
  // submitTx
  // ---------------------------------------------------------------------------

  const SigningPrefix := "Signing error encountered: "

  /** The details `submitTx` insists on before it asks for the transaction. */
  predicate ReadyToSign(d: Details) {
    d.txType.Some? && Truthy(d.source) && Truthy(d.msgId)
  }

  /** Sign the original transaction on the device and send it. It is started
      without being awaited, so a missing detail rejects a promise nobody
      observes: nothing happens and the status stays as it was. The send is
      not awaited either, so a signed transaction always ends Completed, and
      Completed closes the tab. */
  function SubmitTx(d: Details, sign: Response): (r: Flow)
    ensures r.statuses == [] <==> !ReadyToSign(d)
    ensures !ReadyToSign(d) ==> r == Flow([], [], None)
    ensures ReadyToSign(d) && sign.returnCode == NoErrors ==>
      && r.actions == [SignTx, SendSignedTx(d.msgId.value), CloseTab]
      && r.statuses == [Completed]
      && r.error.None?
    ensures ReadyToSign(d) && sign.returnCode != NoErrors ==>
      && r.actions == [SignTx, CloseTransport]
      && r.statuses == [Failed]
      && r.error == Some(ErrorText(SigningPrefix + sign.errorMessage))
      && EndsWith(r.error.value, sign.errorMessage)
  {
    if !ReadyToSign(d) then Flow([], [], None)
    else if sign.returnCode != NoErrors then
      ErrorTextEndsWithMessage(SigningPrefix, sign.errorMessage);
      Flow([SignTx, CloseTransport], [Failed], Some(ErrorText(SigningPrefix + sign.errorMessage)))
    else Flow([SignTx, SendSignedTx(d.msgId.value), CloseTab], [Completed], None)
  }

  // ---------------------------------------------------------------------------
  // handleSubmitTx
  // ---------------------------------------------------------------------------

  const MissingSource := "Source was not provided and is required!"
  const MissingPublicKey := "Public key was not provided and is required!"
  const NotRevealed := "Public key was not revealed!"

  /** The `try` block of `handleSubmitTx` up to the hand-over to `submitTx`:
      validate the details and make sure the public key is known on chain. */
  function EnsureRevealed(d: Details, device: Device, chain: Answers): (r: Attempt)
    ensures !Truthy(d.source) ==> r == Attempt([], Some(MissingSource))
    ensures Truthy(d.source) && !Truthy(d.publicKey) ==> r == Attempt([], Some(MissingPublicKey))
    ensures r.thrown.None? <==>
      && Truthy(d.source) && Truthy(d.publicKey)
      && (|| chain.pkStored
          || Truthy(chain.pkBefore)
          || (device.revealSign.returnCode == NoErrors && chain.revealSent.Ok? && Truthy(chain.pkAfter)))
    ensures SendSignedReveal in r.actions <==>
      && Truthy(d.source) && Truthy(d.publicKey) && !chain.pkStored && !Truthy(chain.pkBefore)
      && device.revealSign.returnCode == NoErrors
    ensures r.thrown.None? ==>
      && |r.actions| >= 1
      && r.actions[0] == QueryStoredPK(d.publicKey.value)
      && (r.actions[|r.actions| - 1] == StorePK(d.publicKey.value) <==> !chain.pkStored)
    ensures (&& Truthy(d.source) && Truthy(d.publicKey) && !chain.pkStored && !Truthy(chain.pkBefore)
             && RevealPk(device.revealSign, chain.revealSent).thrown.Some?) ==>
      r.thrown == RevealPk(device.revealSign, chain.revealSent).thrown
    ensures r.thrown == Some(NotRevealed) <==>
      && Truthy(d.source) && Truthy(d.publicKey) && !chain.pkStored && !Truthy(chain.pkBefore)
      && device.revealSign.returnCode == NoErrors && chain.revealSent.Ok? && !Truthy(chain.pkAfter)
  {
    if !Truthy(d.source) then Attempt([], Some(MissingSource))
    else if !Truthy(d.publicKey) then Attempt([], Some(MissingPublicKey))
    else
      var source := d.source.value;
      var pk := d.publicKey.value;
      if chain.pkStored then Attempt([QueryStoredPK(pk)], None)
      else
        var asked := [QueryStoredPK(pk), QueryChainPK(source, chain.pkBefore)];
        if Truthy(chain.pkBefore) then Attempt(asked + [StorePK(pk)], None)
        else
          var revealing := RevealPk(device.revealSign, chain.revealSent);
          if revealing.thrown.Some? then Attempt(asked + revealing.actions, revealing.thrown)
          else
            var confirmed := asked + revealing.actions + [QueryChainPK(source, chain.pkAfter)];
            if !Truthy(chain.pkAfter) then Attempt(confirmed, Some(NotRevealed))
            else Attempt(confirmed + [StorePK(pk)], None)
  }

  /** One press of "Submit". */
  function HandleSubmitTx(d: Details, device: Device, chain: Answers): (r: Flow)
    ensures device.init.Err? ==> r == Flow([], [Failed], Some(device.init.message))
    ensures |r.statuses| >= 1
    ensures r.statuses[0] == Pending <==> device.init.Ok? && device.status.returnCode == NoErrors
    ensures r.error.Some? <==> FinalStatus(r) == Failed
    ensures CloseTransport in r.actions <==> device.init.Ok? && FinalStatus(r) == Failed
    ensures SignTx in r.actions <==>
      device.init.Ok? && device.status.returnCode == NoErrors
      && EnsureRevealed(d, device, chain).thrown.None? && ReadyToSign(d)
    ensures device.init.Ok? && device.status.returnCode == NoErrors && EnsureRevealed(d, device, chain).thrown.Some? ==>
      && r.statuses == [Pending, Failed]
      && r.actions == EnsureRevealed(d, device, chain).actions + [CloseTransport]
      && r.error == Some(ErrorText(EnsureRevealed(d, device, chain).thrown.value))
    ensures FinalStatus(r) == Completed <==>
      device.init.Ok? && device.status.returnCode == NoErrors
      && EnsureRevealed(d, device, chain).thrown.None? && ReadyToSign(d)
      && device.txSign.returnCode == NoErrors
    ensures (&& device.init.Ok? && device.status.returnCode == NoErrors
             && EnsureRevealed(d, device, chain).thrown.None? && ReadyToSign(d)
             && device.txSign.returnCode != NoErrors) ==>
      r.error == Some(ErrorText(SigningPrefix + device.txSign.errorMessage))
  {
    match device.init
    case Err(e) => Flow([], [Failed], Some(e))
    case Ok =>
      if device.status.returnCode != NoErrors then
        Flow([CloseTransport], [Failed], Some(device.status.errorMessage))
      else
        var prepared := EnsureRevealed(d, device, chain);
        if prepared.thrown.Some? then
          Flow(prepared.actions + [CloseTransport], [Pending, Failed], Some(ErrorText(prepared.thrown.value)))
        else
          var submitted := SubmitTx(d, device.txSign);
          Flow(prepared.actions + submitted.actions, [Pending] + submitted.statuses, submitted.error)
  }

  // ---------------------------------------------------------------------------
  // Properties of one press of "Submit"
  // ---------------------------------------------------------------------------

  /** The device reports a bad status: the transport is closed, the device's
      message is the error, and the screen fails without ever being Pending. */
  lemma DeviceStatusFailure(d: Details, device: Device, chain: Answers)
    requires device.init.Ok? && device.status.returnCode != NoErrors
    ensures var f := HandleSubmitTx(d, device, chain);
      && f.actions == [CloseTransport]
      && f.error == Some(device.status.errorMessage)
      && FinalStatus(f) == Failed
      && Pending !in f.statuses
  {
  }

  /** A missing source or public key, found after going Pending, fails the
      flow with the transport closed and nothing asked of store or chain. */
  lemma MissingDetailsFail(d: Details, device: Device, chain: Answers)
    requires device.init.Ok? && device.status.returnCode == NoErrors
    requires !Truthy(d.source) || !Truthy(d.publicKey)
    ensures var f := HandleSubmitTx(d, device, chain);
      && f.actions == [CloseTransport]
      && f.statuses == [Pending, Failed]
      && f.error == Some(ErrorText(if !Truthy(d.source) then MissingSource else MissingPublicKey))
  {
  }

  /** A key already stored locally: no chain query, no reveal, straight to
      `submitTx`. */
  lemma StoredKeySkipsChain(d: Details, device: Device, chain: Answers)
    requires device.init.Ok? && device.status.returnCode == NoErrors
    requires Truthy(d.source) && Truthy(d.publicKey) && chain.pkStored
    ensures var f := HandleSubmitTx(d, device, chain);
      && f.actions == [QueryStoredPK(d.publicKey.value)] + SubmitTx(d, device.txSign).actions
      && (forall i | 0 <= i < |f.actions| :: !f.actions[i].QueryChainPK?)
      && SignReveal !in f.actions
      && SendSignedReveal !in f.actions
  {
  }

  /** A key the chain knows but the store does not is stored locally, and no
      reveal is signed or sent. */
  lemma ChainKeyIsBackfilled(d: Details, device: Device, chain: Answers)
    requires device.init.Ok? && device.status.returnCode == NoErrors
    requires Truthy(d.source) && Truthy(d.publicKey) && !chain.pkStored && Truthy(chain.pkBefore)
    ensures var f := HandleSubmitTx(d, device, chain);
      && f.actions == [QueryStoredPK(d.publicKey.value), QueryChainPK(d.source.value, chain.pkBefore),
                       StorePK(d.publicKey.value)] + SubmitTx(d, device.txSign).actions
      && f.statuses == [Pending] + SubmitTx(d, device.txSign).statuses
      && f.error == SubmitTx(d, device.txSign).error
      && SignReveal !in f.actions
      && SendSignedReveal !in f.actions
  {
  }

  /** A reveal the chain does not confirm fails the flow: one reveal was sent,
      the original transaction is never signed nor sent. */
  lemma UnconfirmedRevealAborts(d: Details, device: Device, chain: Answers)
    requires device.init.Ok? && device.status.returnCode == NoErrors
    requires Truthy(d.source) && Truthy(d.publicKey) && !chain.pkStored && !Truthy(chain.pkBefore)
    requires device.revealSign.returnCode == NoErrors && chain.revealSent.Ok?
    requires !Truthy(chain.pkAfter)
    ensures var f := HandleSubmitTx(d, device, chain);
      && f.error == Some(ErrorText(NotRevealed))
      && FinalStatus(f) == Failed
      && multiset(f.actions)[SendSignedReveal] == 1
      && SignTx !in f.actions
      && (forall i | 0 <= i < |f.actions| :: !f.actions[i].SendSignedTx?)
      && f.actions[|f.actions| - 1] == CloseTransport
  {
  }

  /** A reveal signature the device refuses throws before any reveal is sent,
      and the flow fails with the device's message at the end of its error. */
  lemma RevealSignFailureSendsNothing(d: Details, device: Device, chain: Answers)
    requires device.init.Ok? && device.status.returnCode == NoErrors
    requires Truthy(d.source) && Truthy(d.publicKey) && !chain.pkStored && !Truthy(chain.pkBefore)
    requires device.revealSign.returnCode != NoErrors
    ensures var f := HandleSubmitTx(d, device, chain);
      && SendSignedReveal !in f.actions
      && SignTx !in f.actions
      && FinalStatus(f) == Failed
      && f.error.Some? && EndsWith(f.error.value, device.revealSign.errorMessage)
  {
    var thrown := RevealPk(device.revealSign, chain.revealSent).thrown.value;
    RevealErrorKeepsCause(device.revealSign, chain.revealSent);
    assert thrown != "";
    EndsWithAfterPrefix("Error: ", thrown, device.revealSign.errorMessage);
  }

  /** The scenario of an unrevealed account: query finds nothing, the reveal is
      signed and sent, the chain confirms it, the key is stored, and only then
      is the original transaction signed and sent; the flow completes. */
  lemma ConfirmedRevealPrecedesSubmission(d: Details, device: Device, chain: Answers)
    requires device.init.Ok? && device.status.returnCode == NoErrors
    requires ReadyToSign(d) && Truthy(d.publicKey) && !chain.pkStored && !Truthy(chain.pkBefore)
    requires device.revealSign.returnCode == NoErrors && chain.revealSent.Ok?
    requires Truthy(chain.pkAfter) && device.txSign.returnCode == NoErrors
    ensures var f := HandleSubmitTx(d, device, chain);
      && f.actions == [QueryStoredPK(d.publicKey.value), QueryChainPK(d.source.value, chain.pkBefore),
                       SignReveal, SendSignedReveal, QueryChainPK(d.source.value, chain.pkAfter),
                       StorePK(d.publicKey.value), SignTx, SendSignedTx(d.msgId.value), CloseTab]
      && f.statuses == [Pending, Completed]
      && f.error.None?
  {
  }

  /** Every reveal sent comes before any original transaction sent, with a
      chain query that found the key and a local store of it in between. */
  ghost predicate RevealConfirmedBeforeSubmit(a: seq<Action>) {
    forall i, j | 0 <= i < |a| && 0 <= j < |a| && a[i] == SendSignedReveal && a[j].SendSignedTx? ::
      i + 2 < j && a[i + 1].QueryChainPK? && Truthy(a[i + 1].answer) && a[i + 2].StorePK?
  }

  /** The original transaction is sent only when the key was stored locally,
      found on chain, or confirmed on chain after a reveal. */
  ghost predicate SentOnlyWithKnownKey(a: seq<Action>, chain: Answers) {
    (exists j | 0 <= j < |a| :: a[j].SendSignedTx?) ==>
      chain.pkStored || Truthy(chain.pkBefore) || (Truthy(chain.pkAfter) && SendSignedReveal in a)
  }

  /** When the flow stops before a reveal is needed or attempted, no reveal
      is sent. */
  lemma NoRevealWithoutNeed(d: Details, device: Device, chain: Answers)
    requires device.init.Err? || device.status.returnCode != NoErrors || !Truthy(d.source)
      || !Truthy(d.publicKey) || chain.pkStored || Truthy(chain.pkBefore)
    ensures SendSignedReveal !in HandleSubmitTx(d, device, chain).actions
  {
  }

  /** When the device or the details stop the flow before the key is looked
      up, nothing at all is sent. */
  lemma NothingSentBeforeLookup(d: Details, device: Device, chain: Answers)
    requires device.init.Err? || device.status.returnCode != NoErrors || !Truthy(d.source) || !Truthy(d.publicKey)
    ensures var a := HandleSubmitTx(d, device, chain).actions;
      forall j | 0 <= j < |a| :: !a[j].SendSignedTx?
  {
  }

  /** A list with no reveal sent satisfies the reveal ordering vacuously. */
  lemma OrderingWithoutReveal(a: seq<Action>)
    requires SendSignedReveal !in a
    ensures RevealConfirmedBeforeSubmit(a)
  {
    assert forall i | 0 <= i < |a| :: a[i] in a;
  }

  /** A list with no transaction sent satisfies both orderings vacuously. */
  lemma OrderingWithoutSubmission(a: seq<Action>, chain: Answers)
    requires forall j | 0 <= j < |a| :: !a[j].SendSignedTx?
    ensures RevealConfirmedBeforeSubmit(a) && SentOnlyWithKnownKey(a, chain)
  {
  }

  /** When the reveal fails or goes unconfirmed, nothing else is sent. */
  lemma NoSubmissionAfterFailedReveal(d: Details, device: Device, chain: Answers)
    requires device.init.Ok? && device.status.returnCode == NoErrors && Truthy(d.source) && Truthy(d.publicKey)
    requires !chain.pkStored && !Truthy(chain.pkBefore)
    requires device.revealSign.returnCode != NoErrors || chain.revealSent.Err? || !Truthy(chain.pkAfter)
    ensures var a := HandleSubmitTx(d, device, chain).actions;
      forall j | 0 <= j < |a| :: !a[j].SendSignedTx?
  {
  }

  lemma ConfirmedRevealShape(d: Details, device: Device, chain: Answers)
    requires device.init.Ok? && device.status.returnCode == NoErrors && Truthy(d.source) && Truthy(d.publicKey)
    requires !chain.pkStored && !Truthy(chain.pkBefore)
    requires device.revealSign.returnCode == NoErrors && chain.revealSent.Ok? && Truthy(chain.pkAfter)
    ensures HandleSubmitTx(d, device, chain).actions
      == [QueryStoredPK(d.publicKey.value), QueryChainPK(d.source.value, chain.pkBefore),
          SignReveal, SendSignedReveal, QueryChainPK(d.source.value, chain.pkAfter),
          StorePK(d.publicKey.value)] + SubmitTx(d, device.txSign).actions
  {
  }

  lemma OrderingOfConfirmedShape(prefix: seq<Action>, s: seq<Action>)
    requires |prefix| == 6 && prefix[3] == SendSignedReveal
    requires prefix[4].QueryChainPK? && Truthy(prefix[4].answer) && prefix[5].StorePK?
    requires forall k | 0 <= k < |prefix| && k != 3 :: prefix[k] != SendSignedReveal
    requires forall k | 0 <= k < |prefix| :: !prefix[k].SendSignedTx?
    requires forall k | 0 <= k < |s| :: s[k] != SendSignedReveal
    ensures RevealConfirmedBeforeSubmit(prefix + s)
  {
    var a := prefix + s;
    assert forall k | 0 <= k < 6 :: a[k] == prefix[k];
    assert forall k | 6 <= k < |a| :: a[k] == s[k - 6];
    assert forall i | 0 <= i < |a| && a[i] == SendSignedReveal :: i == 3;
    assert forall j | 0 <= j < |a| && a[j].SendSignedTx? :: j >= 6;
    assert a[4] == prefix[4] && a[5] == prefix[5];
  }

  /** A confirmed reveal is followed by the confirming query and the store
      before the transaction is sent, and the key is then known. */
  lemma OrderingAfterConfirmedReveal(d: Details, device: Device, chain: Answers)
    requires device.init.Ok? && device.status.returnCode == NoErrors && Truthy(d.source) && Truthy(d.publicKey)
    requires !chain.pkStored && !Truthy(chain.pkBefore)
    requires device.revealSign.returnCode == NoErrors && chain.revealSent.Ok? && Truthy(chain.pkAfter)
    ensures var a := HandleSubmitTx(d, device, chain).actions;
      RevealConfirmedBeforeSubmit(a) && SentOnlyWithKnownKey(a, chain)
  {
    ConfirmedRevealShape(d, device, chain);
    var prefix := [QueryStoredPK(d.publicKey.value), QueryChainPK(d.source.value, chain.pkBefore),
                   SignReveal, SendSignedReveal, QueryChainPK(d.source.value, chain.pkAfter),
                   StorePK(d.publicKey.value)];
    OrderingOfConfirmedShape(prefix, SubmitTx(d, device.txSign).actions);
  }

  /** Whatever the device, store and chain answer, a reveal is confirmed and
      its key stored before the original transaction is sent, and that
      transaction is sent only when its key is known. */
  lemma RevealOrderingHolds(d: Details, device: Device, chain: Answers)
    ensures var f := HandleSubmitTx(d, device, chain);
      RevealConfirmedBeforeSubmit(f.actions) && SentOnlyWithKnownKey(f.actions, chain)
  {
    var a := HandleSubmitTx(d, device, chain).actions;
    if device.init.Err? || device.status.returnCode != NoErrors || !Truthy(d.source) || !Truthy(d.publicKey) {
      NothingSentBeforeLookup(d, device, chain);
      OrderingWithoutSubmission(a, chain);
    } else if chain.pkStored || Truthy(chain.pkBefore) {
      NoRevealWithoutNeed(d, device, chain);
      OrderingWithoutReveal(a);
    } else if device.revealSign.returnCode != NoErrors || chain.revealSent.Err? || !Truthy(chain.pkAfter) {
      NoSubmissionAfterFailedReveal(d, device, chain);
      OrderingWithoutSubmission(a, chain);
    } else {
      OrderingAfterConfirmedReveal(d, device, chain);
    }
  }

  /** Statuses only move forward: Unstarted to Pending or straight to Failed,
      Pending to Completed or Failed. */
  predicate Advances(from: TxStatus, to: TxStatus) {
    match from
    case Unstarted => to == Pending || to == Failed
    case Pending => to == Completed || to == Failed
    case _ => false
  }

  predicate ProgressesFrom(from: TxStatus, ss: seq<TxStatus>)
    decreases |ss|
  {
    ss == [] || (Advances(from, ss[0]) && ProgressesFrom(ss[0], ss[1..]))
  }

  /** Whatever the device, store and chain answer, the statuses set form a
      forward path; a Failed end with an open transport closes it and shows an
      error, and a Completed end sent the transaction, closed the tab last and
      left the transport open. */
  lemma OutcomeIsWellFormed(d: Details, device: Device, chain: Answers)
    ensures var f := HandleSubmitTx(d, device, chain);
      && ProgressesFrom(Unstarted, f.statuses)
      && (FinalStatus(f) == Failed ==> f.error.Some? && (device.init.Ok? ==> CloseTransport in f.actions))
      && (FinalStatus(f) == Completed ==>
            && f.error.None?
            && |f.actions| >= 2
            && f.actions[|f.actions| - 1] == CloseTab
            && f.actions[|f.actions| - 2].SendSignedTx?
            && CloseTransport !in f.actions)
      && (FinalStatus(f) == Pending ==> !ReadyToSign(d) && CloseTransport !in f.actions)
  {
  }
}
